=== FILE: README.md ===
# Keyless entry press classifier, in Dafny

This project models the core of an ESP32 keyless-entry controller. The controller has four RF receiver inputs (channels). On every pass of its poll loop it samples each input and advances that channel's press state machine. The state machine classifies a button press as a **Short**, **Long** or **Double** press. It then looks the gesture up in a 4 × 3 action table, and the entry found there can pulse one of four relays.

The model has five modules:

- `Time` (`time.dfy`): the firmware's `unsigned long` timestamps as a 32-bit newtype. `Elapsed` is the wrap-safe `now - since`, and `Advance` is a timestamp moved forward with the wrap-around of `millis()`.
- `Classifier` (`classifier.dfy`): one channel as a pure state machine. `Step` is one pass of the loop body for one channel, split as the code is into `Press` (rising edge), `Release` (falling edge and classification) and `Timeout` (resolution of a pending short press). `Run` drives a channel through a sequence of samples. Each branch and each multi-tick behaviour is stated as a lemma.
- `Dispatch` (`dispatch.dfy`): the action table, the relay pulse of `triggerAction`, and the `Relays` class. That class holds the relay output levels and the log of every relay write made by `triggerAction`, as (GPIO pin, level) pairs in order. The LOW writes of `setup()` are not in the log.
- `Keyless` (`keyless.dfy`): the `Channels` class, which holds the four global state arrays `isPressing`, `pressStart`, `lastPressTime` and `doublePending` as arrays indexed by channel. `ProcessChannel` is the loop body, written imperatively and split into its three `if` blocks (`PressEdge`, `ReleaseEdge`, `ResolvePending`). `Tick` is the `for` loop over the channels. Each method is proved against the `Classifier` functions, and `Tick` also against `Collect`.
- `Scenarios` (`scenarios.dfy`): four end-to-end press sequences for one channel. They hold from any start time, so they also hold across the 32-bit wrap of `millis()`.

The inputs `millis()` and `digitalRead(rfPins[i])` are parameters: `now`, and `levels[i]`. The relay outputs are an array of levels plus a write log.

## Model

| member | source | states |
|---|---|---|
| Time.Elapsed | esp_32_keyless_entry.cpp:73-88 | The unsigned differences `now - pressStart[i]` (line 73) and `now - lastPressTime[i]` (lines 79 and 88): the result added to `since` gives `now` modulo 2^32. `ElapsedInverse` shows it is the only such step below 2^32. |
| Time.ElapsedInverse | esp_32_keyless_entry.cpp:73 | The unsigned difference `now - since` is the unique step below 2^32 that leads from `since` to `now` modulo 2^32. |
| Time.ElapsedAdds | esp_32_keyless_entry.cpp:79 | Elapsed times along three timestamps add up when together they stay below one turn of the clock. |
| Time.Advance | esp_32_keyless_entry.cpp:64 | A timestamp moved forward by `d` < 2^32 ms, with wrap-around, lies exactly `d` ms after the original. |
| Classifier.TypeIndex | esp_32_keyless_entry.cpp:25-26 | Press-type numbers 0/1/2 name short/long/double and stay inside the table's three columns; `GestureOf` inverts it. |
| Classifier.Classify | esp_32_keyless_entry.cpp:75-86 | A release is Long iff its duration is ≥ 800, short iff ≤ 400, and in the dead zone iff strictly between the two. |
| Classifier.Press | esp_32_keyless_entry.cpp:68-71 | A high level sets `pressing`, and a new `pressStart` can only be `now`. The pending flag and `lastPressTime` are untouched. `RisingEdge` and `HeldHigh` give the whole effect of a tick. |
| Classifier.Release | esp_32_keyless_entry.cpp:72-87 | Without a falling edge nothing changes and nothing is emitted. A low level always leaves `pressing` clear. At most one gesture is emitted, and emitting one clears the pending flag. `lastPressTime` either stays or becomes `now`. The three outcomes are given by `LongPressRelease`, `DoubleRelease`, `ShortReleaseHeld` and `DeadZoneRelease`. |
| Classifier.Timeout | esp_32_keyless_entry.cpp:88-91 | Emits `[Short]` iff a short press is pending and more than 500 ms have passed, and otherwise nothing. Afterwards no expired press is pending. Only the pending flag can change. |
| Classifier.Step | esp_32_keyless_entry.cpp:67-91 | One pass of the loop body for one channel: `Press`, then `Release`, then `Timeout`, at the same `now`. It is characterised branch by branch by `RisingEdge`, `HeldHigh`, the four release lemmas, `TimeoutFires` and `AtMostOneGesture`. |
| Classifier.RisingEdge | esp_32_keyless_entry.cpp:68-71 | A high level while not pressing sets `pressing` and `pressStart = now`. The only other effect is the timeout of a pending short press. |
| Classifier.HeldHigh | esp_32_keyless_entry.cpp:68-71 | A level that stays high while pressing changes no press state. Only the timeout can act. |
| Classifier.LongPressRelease | esp_32_keyless_entry.cpp:73-77 | A release after ≥ 800 ms emits exactly `[Long]`. It clears `pressing` and `doublePending` whatever came before, and changes nothing else. |
| Classifier.DoubleRelease | esp_32_keyless_entry.cpp:78-81 | A release after ≤ 400 ms, with a short press pending no more than 500 ms earlier, emits exactly `[Double]` and clears the pending flag. |
| Classifier.ShortReleaseHeld | esp_32_keyless_entry.cpp:82-85 | A short release that forms no double emits nothing. It sets `doublePending` and `lastPressTime = now`, so the same tick's timeout cannot fire. |
| Classifier.DeadZoneRelease | esp_32_keyless_entry.cpp:74-86 | A release after 401–799 ms only clears `pressing` and emits nothing itself. `lastPressTime` is kept, and only the timeout of an earlier short press can act. |
| Classifier.TimeoutFires | esp_32_keyless_entry.cpp:88-91 | A Short is emitted iff a short press is still pending after release handling and more than 500 ms have passed. No tick ends with an expired pending press. |
| Classifier.AtMostOneGesture | esp_32_keyless_entry.cpp:72-91 | One tick of one channel emits at most one gesture. |
| Classifier.Run | esp_32_keyless_entry.cpp:62-93 | Successive passes of `loop()` for one channel, one sample each. It is characterised by `RunAppend`, `RunEmitsAtMostOnePerTick` and the multi-tick lemmas below. |
| Classifier.RunAppend | esp_32_keyless_entry.cpp:62-93 | Running two stretches of poll ticks in turn is the same as running their concatenation. |
| Classifier.RunEmitsAtMostOnePerTick | esp_32_keyless_entry.cpp:62-93 | A channel emits no more gestures than it is polled. |
| Classifier.PendingWaits | esp_32_keyless_entry.cpp:88-91 | Idle ticks within 500 ms of a pending short release emit nothing and change nothing. |
| Classifier.QuietWaits | esp_32_keyless_entry.cpp:62-93 | With no press in progress and no short press pending, idle ticks emit nothing and change nothing. |
| Classifier.LoneShortResolves | esp_32_keyless_entry.cpp:82-91 | A lone short press yields exactly one Short, on the first idle tick more than 500 ms after its release: not earlier, not skipped, and nothing after it however long the line stays idle. |
| Classifier.HeldWaits | esp_32_keyless_entry.cpp:68-91 | Ticks with the button held emit nothing and change nothing, when no short press is pending or they are all within 500 ms of it. |
| Classifier.TwoShortPressesMakeDouble | esp_32_keyless_entry.cpp:68-91 | A second short press released within 500 ms of the first yields exactly one Double and no Short, and leaves nothing pending. This holds however many idle ticks come before it and however many held ticks come during it. |
| Classifier.LateSecondPress | esp_32_keyless_entry.cpp:68-91 | A second short press whose rising edge is the first tick after the gap gets the first press resolved to Short on that tick. Its own release is then held pending, whatever held ticks come between. |
| Classifier.ShortFiresDuringSecondPress | esp_32_keyless_entry.cpp:68-91 | A second short press that starts within the gap but is held past its end gets the first press resolved to Short on the first held tick after the gap. Its own release is then held pending. |
| Classifier.SparseTicksMergeShortPresses | esp_32_keyless_entry.cpp:68-91 | Suppose no tick falls between the end of the gap and the second release. Then the second release re-arms the pending flag, and the first short press is never reported. |
| Classifier.IdleTickTwoShorts | esp_32_keyless_entry.cpp:68-91 | Suppose the first press's Short fires on an idle tick, and any number of idle ticks follow before the second short press. The second press then yields its own Short after its gap. That makes exactly `[Short, Short]`, and nothing more while the line stays idle. |
| Classifier.LateSecondPressTwoShorts | esp_32_keyless_entry.cpp:68-91 | If a second short press starts after the gap, the first Short fires on its rising edge and the second fires after its own gap. That makes exactly `[Short, Short]`. |
| Classifier.HeldTickTwoShorts | esp_32_keyless_entry.cpp:68-91 | If a second short press is held past the first press's gap, the first Short fires on a held tick and the second fires after its own gap. That makes exactly `[Short, Short]`. |
| Dispatch.Lookup | esp_32_keyless_entry.cpp:96 | `actions[ch][type]`, with `type` the gesture's press-type number (`TypeIndex`). `WritesOfOne` ties it to dispatch. |
| Dispatch.Target | esp_32_keyless_entry.cpp:98-101 | An action names a relay iff it is not "none" and its index lies in [0, 4), and the relay it names is that index. |
| Dispatch.PulseWrites | esp_32_keyless_entry.cpp:98-105 | "none" or a relay index outside [0, 4) gives no write. A valid index gives exactly `relayPins[index]` HIGH, then the same pin LOW. |
| Dispatch.Writes | esp_32_keyless_entry.cpp:66-106 | The relay writes of successive `triggerAction` calls. It is characterised by `WritesOfOne`, `WritesAppend`, `WritesArePulses` and `UnroutedEventsWriteNothing`. |
| Dispatch.WritesOfOne | esp_32_keyless_entry.cpp:95-106 | Dispatching a single gesture writes exactly what its table entry's pulse writes. |
| Dispatch.WritesAppend | esp_32_keyless_entry.cpp:66-92 | The writes of successive dispatches concatenate in order. |
| Dispatch.WritesArePulses | esp_32_keyless_entry.cpp:101-105 | With any table, dispatch writes only whole HIGH-then-LOW pulses on relay pins. |
| Dispatch.UnroutedEventsWriteNothing | esp_32_keyless_entry.cpp:98-101 | Gestures whose entries are "none" or out of range cause no relay write at all. |
| Dispatch.PulsesEndLow | esp_32_keyless_entry.cpp:102-104 | A log of whole pulses leaves every relay output that started LOW at LOW. |
| Dispatch.Relays.constructor | esp_32_keyless_entry.cpp:38-42 | Start-up drives every relay output LOW, and nothing has been written after it. |
| Dispatch.Relays.TriggerAction | esp_32_keyless_entry.cpp:95-106 | Appends exactly the table entry's pulse writes to the log, and every relay is LOW again afterwards. |
| Keyless.Collect | esp_32_keyless_entry.cpp:66-92 | The events of one tick come from the channels already processed. If each channel emits at most one gesture, there are at most as many events as channels. |
| Keyless.CollectOfChannel | esp_32_keyless_entry.cpp:66-92 | The events a tick reports for channel `ch` are exactly that channel's own state-machine output, whatever the other channels do. |
| Keyless.TickEmitsAtMostOnePerChannel | esp_32_keyless_entry.cpp:66-92 | One tick reports at most four events, and at most one per channel. |
| Keyless.Channels.constructor | esp_32_keyless_entry.cpp:15-18 | All four channels start idle with zeroed timestamps. |
| Keyless.Channels.PressEdge | esp_32_keyless_entry.cpp:68-71 | Index `i` of the arrays becomes `Press` of its old state. Every other index is unchanged. |
| Keyless.Channels.ReleaseEdge | esp_32_keyless_entry.cpp:72-87 | Index `i` becomes `Release` of its old state, and that gesture is dispatched. Other indices are unchanged. |
| Keyless.Channels.ResolvePending | esp_32_keyless_entry.cpp:88-91 | Index `i` becomes `Timeout` of its old state, and Short is dispatched when it fires. Other indices are unchanged. |
| Keyless.Channels.ProcessChannel | esp_32_keyless_entry.cpp:67-91 | Channel `i` becomes `Step` of its old state and its gestures are dispatched. It reads and writes only index `i` of the four arrays. |
| Keyless.Channels.Tick | esp_32_keyless_entry.cpp:62-93 | Every channel advances by `Step` on its own sample. The events are the channels' gestures in channel order, and the relay log grows by exactly their dispatch. |
| Scenarios.ShortPressScenario | esp_32_keyless_entry.cpp:62-93 | Press 200 ms then release: nothing by 500 ms after the release, and one Short at 600 ms after it. |
| Scenarios.DoublePressScenario | esp_32_keyless_entry.cpp:62-93 | Press 200 ms, release, pause 100 ms, press 150 ms, release: one Double at the second release, and no Short. |
| Scenarios.LongPressScenario | esp_32_keyless_entry.cpp:62-93 | Press 900 ms then release: one Long at the release. |
| Scenarios.DeadZoneScenario | esp_32_keyless_entry.cpp:62-93 | Press 600 ms then release: no gesture, and no short press left pending. |

## Left out

- WiFi soft-AP, HTTP routing, the HTML configuration form and `handleSave`: network I/O and UI text. In the model the action table is an input of `Tick`.
- Firmware update (`handleUpdateForm`, `handleOTA`): these are calls into the update library and a restart.
- `Preferences` loading and saving of the table. This is a key/value store behind a library; the table is a parameter.
- `String::toInt`. Its behaviour on non-numeric text belongs to the Arduino library. Each entry is already `NoAction` or `Relay(n)` for an arbitrary integer `n`, so the range check is still exercised.
- `Serial` logging. It has no effect on the state.
- `server.handleClient()` in the poll loop. It can change the action table between ticks; the model takes the table as it is at each tick.
- `millis()`, `digitalRead`, `pinMode`: time and input levels are parameters of `Tick`. `levels[i]` stands for the level read from `RF_PINS[i]`.
- Dispatch.Relays.TriggerAction: the 300 ms `delay` between HIGH and LOW is not modelled. The pulse is the two ordered writes, with no timing. The blocking wait does stall the poll loop, and `SparseTicksMergeShortPresses` shows what a long enough stall does to a pending short press.
- Two short presses further apart than 500 ms yield two Shorts only if some tick falls after the first press's gap ends and before the second release. The code re-arms the pending flag at the second release (lines 82–85). Exactly two Shorts, and nothing after them, are proved for the three places such a tick can fall. It can be an idle tick before the second press, followed by any number of idle ticks (`IdleTickTwoShorts`), the second press's rising edge (`LateSecondPressTwoShorts`), or a held tick of the second press (`HeldTickTwoShorts`). If no tick falls in that window, the first press is lost (`SparseTicksMergeShortPresses`). The model follows the code.

=== FILE: classifier.dfy ===
/** The press classifier of one RF input channel, as a pure state machine:
    one call of `Step` is what one pass of the poll loop does to one channel. */
module Classifier {
  import opened Time

  /** Press-duration thresholds in milliseconds. */
  const SHORT_PRESS_MAX: u32 := 400
  const LONG_PRESS_MIN: u32 := 800
  const DOUBLE_PRESS_GAP: u32 := 500

  /** A classified press; its action-table column is `TypeIndex`. */
  datatype Gesture = Short | Long | Double

  const NUM_GESTURES: nat := 3

  /** The press-type number the firmware passes to `triggerAction`:
      0 = short, 1 = long, 2 = double. */
  function TypeIndex(g: Gesture): (t: nat)
    ensures t < NUM_GESTURES
    ensures GestureOf(t) == g
  {
    match g
    case Short => 0
    case Long => 1
    case Double => 2
  }

  /** The gesture whose press-type number is `t`. */
  function GestureOf(t: nat): Gesture
    requires t < NUM_GESTURES
  {
    if t == 0 then Short else if t == 1 then Long else Double
  }

  /** The per-channel entries of the four state arrays. */
  datatype ChannelState = ChannelState(
    pressing: bool,        // isPressing[i]
    pressStart: u32,       // pressStart[i]
    lastPressTime: u32,    // lastPressTime[i]: when the pending short press was released
    doublePending: bool)   // doublePending[i]

  /** A channel with no press in progress and no short press pending; its
      timestamps are whatever earlier presses left behind. */
  predicate Quiet(s: ChannelState)
  {
    !s.pressing && !s.doublePending
  }

  /** A channel as the firmware starts it: global arrays are zero-initialised. */
  const Idle: ChannelState := ChannelState(false, 0, 0, false)

  /** The new state of a channel and the gestures it hands to `triggerAction`,
      in order. */
  datatype Outcome = Outcome(state: ChannelState, emitted: seq<Gesture>)

  /** How a release is classified by the duration of the press it ends. */
  datatype ReleaseKind = LongRelease | ShortRelease | DeadZone

  function Classify(duration: u32): (k: ReleaseKind)
    ensures k == LongRelease <==> duration >= LONG_PRESS_MIN
    ensures k == ShortRelease <==> duration <= SHORT_PRESS_MAX
    ensures k == DeadZone <==> SHORT_PRESS_MAX < duration < LONG_PRESS_MIN
  {
    if duration >= LONG_PRESS_MIN then LongRelease
    else if duration <= SHORT_PRESS_MAX then ShortRelease
    else DeadZone
  }

  /** A rising edge starts a press. */
  function Press(s: ChannelState, level: bool, now: u32): (r: ChannelState)
    ensures r.pressing == (s.pressing || level)
    ensures r.pressStart == s.pressStart || r.pressStart == now
    ensures r.lastPressTime == s.lastPressTime && r.doublePending == s.doublePending
  {
    if level && !s.pressing then s.(pressStart := now, pressing := true) else s
  }

  /** A falling edge ends a press and classifies it. */
  function Release(s: ChannelState, level: bool, now: u32): (o: Outcome)
    ensures (level || !s.pressing) ==> o == Outcome(s, [])
    ensures !level ==> !o.state.pressing
    ensures o.state.pressStart == s.pressStart
    ensures |o.emitted| <= 1
    ensures o.emitted != [] ==> !o.state.doublePending
    ensures o.state.lastPressTime == s.lastPressTime || o.state.lastPressTime == now
  {
    if !level && s.pressing then
      var released := s.(pressing := false);
      match Classify(Elapsed(now, s.pressStart))
      case LongRelease => Outcome(released.(doublePending := false), [Long])
      case ShortRelease =>
        if s.doublePending && Elapsed(now, s.lastPressTime) <= DOUBLE_PRESS_GAP then
          Outcome(released.(doublePending := false), [Double])
        else
          Outcome(released.(doublePending := true, lastPressTime := now), [])
      case DeadZone => Outcome(released, [])
    else
      Outcome(s, [])
  }

  /** A short press left unpaired for longer than the gap resolves to Short. */
  function Timeout(s: ChannelState, now: u32): (o: Outcome)
    ensures o.emitted == [Short] <==> (s.doublePending && Elapsed(now, s.lastPressTime) > DOUBLE_PRESS_GAP)
    ensures o.emitted == [] || o.emitted == [Short]
    ensures !o.state.doublePending || Elapsed(now, o.state.lastPressTime) <= DOUBLE_PRESS_GAP
    ensures o.state == s.(doublePending := o.state.doublePending)
  {
    if s.doublePending && Elapsed(now, s.lastPressTime) > DOUBLE_PRESS_GAP then
      Outcome(s.(doublePending := false), [Short])
    else
      Outcome(s, [])
  }

  /** One poll tick of one channel that samples `level` at time `now`. */
  function Step(s: ChannelState, level: bool, now: u32): Outcome
  {
    var released := Release(Press(s, level, now), level, now);
    var resolved := Timeout(released.state, now);
    Outcome(resolved.state, released.emitted + resolved.emitted)
  }

  // ---------------------------------------------------------------------
  // One tick, branch by branch

  /** A rising edge records the start of the press; the pending short press,
      if any, is only subject to the timeout. */
  lemma RisingEdge(s: ChannelState, now: u32)
    requires !s.pressing
    ensures var o := Step(s, true, now);
      && o.state.pressing && o.state.pressStart == now
      && o.state.lastPressTime == s.lastPressTime
      && o.state.doublePending == (s.doublePending && Elapsed(now, s.lastPressTime) <= DOUBLE_PRESS_GAP)
      && o.emitted == (if s.doublePending && !o.state.doublePending then [Short] else [])
  {
  }

  /** A level that stays high changes no press state. */
  lemma HeldHigh(s: ChannelState, now: u32)
    requires s.pressing
    ensures var o := Step(s, true, now);
      && o.state.pressing && o.state.pressStart == s.pressStart
      && o.state == Timeout(s, now).state && o.emitted == Timeout(s, now).emitted
  {
  }

  /** A long press emits exactly Long and always clears the pending short press,
      whatever came before. */
  lemma LongPressRelease(s: ChannelState, now: u32)
    requires s.pressing && Elapsed(now, s.pressStart) >= LONG_PRESS_MIN
    ensures var o := Step(s, false, now);
      && o.emitted == [Long]
      && o.state == s.(pressing := false, doublePending := false)
  {
  }

  /** A second short press released within the gap emits Double. */
  lemma DoubleRelease(s: ChannelState, now: u32)
    requires s.pressing && Elapsed(now, s.pressStart) <= SHORT_PRESS_MAX
    requires s.doublePending && Elapsed(now, s.lastPressTime) <= DOUBLE_PRESS_GAP
    ensures var o := Step(s, false, now);
      && o.emitted == [Double]
      && o.state == s.(pressing := false, doublePending := false)
  {
  }

  /** A short press that pairs with nothing is held back: nothing is emitted in
      this tick, and the timeout cannot fire because no time has passed since
      the release it records. */
  lemma ShortReleaseHeld(s: ChannelState, now: u32)
    requires s.pressing && Elapsed(now, s.pressStart) <= SHORT_PRESS_MAX
    requires !(s.doublePending && Elapsed(now, s.lastPressTime) <= DOUBLE_PRESS_GAP)
    ensures var o := Step(s, false, now);
      && o.emitted == []
      && o.state == s.(pressing := false, doublePending := true, lastPressTime := now)
  {
    ElapsedSelf(now);
  }

  /** A press in the dead zone is discarded: the release only clears `pressing`;
      a pending short press from before is subject to the timeout as usual. */
  lemma DeadZoneRelease(s: ChannelState, now: u32)
    requires s.pressing && SHORT_PRESS_MAX < Elapsed(now, s.pressStart) < LONG_PRESS_MIN
    ensures Release(s, false, now) == Outcome(s.(pressing := false), [])
    ensures var o := Step(s, false, now);
      && o.state.lastPressTime == s.lastPressTime
      && o.state == Timeout(s.(pressing := false), now).state
      && o.emitted == Timeout(s.(pressing := false), now).emitted
  {
  }

  /** The timeout fires exactly when a short press is still pending after the
      release handling and more than the gap has passed since it was released. */
  lemma TimeoutFires(s: ChannelState, level: bool, now: u32)
    ensures var r := Release(Press(s, level, now), level, now).state;
      (Short in Step(s, level, now).emitted)
        <==> (r.doublePending && Elapsed(now, r.lastPressTime) > DOUBLE_PRESS_GAP)
    ensures !Step(s, level, now).state.doublePending
        || Elapsed(now, Step(s, level, now).state.lastPressTime) <= DOUBLE_PRESS_GAP
  {
  }

  /** A channel hands at most one gesture to `triggerAction` per tick: a release
      that emits Long or Double clears the pending flag, and one that holds a
      short press back restarts its gap at zero. */
  lemma AtMostOneGesture(s: ChannelState, level: bool, now: u32)
    ensures |Step(s, level, now).emitted| <= 1
  {
    ElapsedSelf(now);
  }

  // ---------------------------------------------------------------------
  // A channel over many ticks

  /** One poll-loop sample of one channel. */
  datatype Sample = Sample(level: bool, now: u32)

  /** The channel driven through `samples` in order; the gestures of all ticks
      concatenated. */
  function Run(s: ChannelState, samples: seq<Sample>): (o: Outcome)
    decreases |samples|
  {
    if samples == [] then Outcome(s, [])
    else
      var first := Step(s, samples[0].level, samples[0].now);
      var rest := Run(first.state, samples[1..]);
      Outcome(rest.state, first.emitted + rest.emitted)
  }

  /** A run of one sample is one tick. */
  lemma RunOne(s: ChannelState, x: Sample)
    ensures Run(s, [x]) == Step(s, x.level, x.now)
  {
    assert [x][1..] == [];
    var o := Step(s, x.level, x.now);
    assert o.emitted + [] == o.emitted;
  }

  /** Running two stretches of samples one after the other is running their
      concatenation. */
  lemma {:induction false} RunAppend(s: ChannelState, xs: seq<Sample>, ys: seq<Sample>)
    ensures var first := Run(s, xs); var second := Run(first.state, ys);
      Run(s, xs + ys) == Outcome(second.state, first.emitted + second.emitted)
    decreases |xs|
  {
    if xs == [] {
      assert xs + ys == ys;
    } else {
      var o := Step(s, xs[0].level, xs[0].now);
      assert (xs + ys)[0] == xs[0] && (xs + ys)[1..] == xs[1..] + ys;
      RunAppend(o.state, xs[1..], ys);
      var r := Run(o.state, xs[1..]);
      var r2 := Run(r.state, ys);
      assert o.emitted + (r.emitted + r2.emitted) == (o.emitted + r.emitted) + r2.emitted;
    }
  }

  /** Every tick emits at most one gesture, so a run emits at most one per sample. */
  lemma {:induction false} RunEmitsAtMostOnePerTick(s: ChannelState, samples: seq<Sample>)
    ensures |Run(s, samples).emitted| <= |samples|
    decreases |samples|
  {
    if samples != [] {
      AtMostOneGesture(s, samples[0].level, samples[0].now);
      RunAppend(s, samples[..1], samples[1..]);
      RunEmitsAtMostOnePerTick(Step(s, samples[0].level, samples[0].now).state, samples[1..]);
    }
  }

  /** Samples of a released line at the given times. */
  function LowAt(times: seq<u32>): (r: seq<Sample>)
    ensures |r| == |times|
    ensures forall k :: 0 <= k < |r| ==> r[k] == Sample(false, times[k])
  {
    seq(|times|, k requires 0 <= k < |times| => Sample(false, times[k]))
  }

  /** While no more than the gap has passed since the pending short press was
      released, idle ticks emit nothing and change nothing. */
  lemma {:induction false} PendingWaits(s: ChannelState, times: seq<u32>)
    requires !s.pressing && s.doublePending
    requires forall k :: 0 <= k < |times| ==> Elapsed(times[k], s.lastPressTime) <= DOUBLE_PRESS_GAP
    ensures Run(s, LowAt(times)) == Outcome(s, [])
    decreases |times|
  {
    if times != [] {
      assert LowAt(times)[1..] == LowAt(times[1..]);
      PendingWaits(s, times[1..]);
    }
  }

  /** With no press in progress and no short press pending, idle ticks emit
      nothing and change nothing, however long the channel stays quiet. */
  lemma {:induction false} QuietWaits(s: ChannelState, times: seq<u32>)
    requires Quiet(s)
    ensures Run(s, LowAt(times)) == Outcome(s, [])
    decreases |times|
  {
    if times != [] {
      assert LowAt(times)[1..] == LowAt(times[1..]);
      QuietWaits(s, times[1..]);
    }
  }

  /** A lone short press resolves to exactly one Short, on the first idle tick
      later than the gap after its release: not earlier, not skipped, and
      followed by nothing however long the line then stays idle. */
  lemma {:induction false} LoneShortResolves(s: ChannelState, times: seq<u32>, rest: seq<u32>)
    requires !s.pressing && s.doublePending
    requires |times| > 0
    requires forall k :: 0 <= k < |times| - 1 ==> Elapsed(times[k], s.lastPressTime) <= DOUBLE_PRESS_GAP
    requires Elapsed(times[|times| - 1], s.lastPressTime) > DOUBLE_PRESS_GAP
    ensures Run(s, LowAt(times + rest)) == Outcome(s.(doublePending := false), [Short])
  {
    var n := |times| - 1;
    var init := LowAt(times[..n]);
    assert LowAt(times + rest) == init + [Sample(false, times[n])] + LowAt(rest);
    PendingWaits(s, times[..n]);
    RunOne(s, Sample(false, times[n]));
    RunAppend(s, init, [Sample(false, times[n])]);
    QuietWaits(s.(doublePending := false), rest);
    RunAppend(s, init + [Sample(false, times[n])], LowAt(rest));
  }

  /** Samples of a line held high at the given times. */
  function HighAt(times: seq<u32>): (r: seq<Sample>)
    ensures |r| == |times|
    ensures forall k :: 0 <= k < |r| ==> r[k] == Sample(true, times[k])
  {
    seq(|times|, k requires 0 <= k < |times| => Sample(true, times[k]))
  }

  /** While a press is held, ticks emit nothing and change nothing, provided no
      short press is pending or none of them is later than its gap. */
  lemma {:induction false} HeldWaits(s: ChannelState, times: seq<u32>)
    requires s.pressing
    requires s.doublePending ==>
      forall k :: 0 <= k < |times| ==> Elapsed(times[k], s.lastPressTime) <= DOUBLE_PRESS_GAP
    ensures Run(s, HighAt(times)) == Outcome(s, [])
    decreases |times|
  {
    if times != [] {
      assert HighAt(times)[1..] == HighAt(times[1..]);
      HeldWaits(s, times[1..]);
    }
  }

  /** The samples of a second press that comes while a short press is pending:
      idle ticks, the rising edge at `down`, ticks with the line held high, and
      the release at `up`. */
  function SecondPress(idle: seq<u32>, down: u32, held: seq<u32>, up: u32): seq<Sample>
  {
    LowAt(idle) + [Sample(true, down)] + HighAt(held) + [Sample(false, up)]
  }

  /** Composes a run of `SecondPress` from the runs of its four parts. */
  lemma RunSecondPress(s: ChannelState, idle: seq<u32>, down: u32, held: seq<u32>, up: u32)
    ensures var a := Run(s, LowAt(idle));
      var b := Step(a.state, true, down);
      var c := Run(b.state, HighAt(held));
      var d := Step(c.state, false, up);
      Run(s, SecondPress(idle, down, held, up))
        == Outcome(d.state, a.emitted + b.emitted + c.emitted + d.emitted)
  {
    var a := Run(s, LowAt(idle));
    var b := Step(a.state, true, down);
    var c := Run(b.state, HighAt(held));
    var d := Step(c.state, false, up);
    RunOne(a.state, Sample(true, down));
    RunOne(c.state, Sample(false, up));
    RunAppend(s, LowAt(idle), [Sample(true, down)]);
    RunAppend(s, LowAt(idle) + [Sample(true, down)], HighAt(held));
    RunAppend(s, LowAt(idle) + [Sample(true, down)] + HighAt(held), [Sample(false, up)]);
    assert a.emitted + b.emitted + c.emitted + d.emitted
      == ((a.emitted + b.emitted) + c.emitted) + d.emitted;
  }

  /** Two short presses whose releases lie no more than the gap apart make one
      Double and no Short, however often the line is polled before and during
      the second press. */
  lemma TwoShortPressesMakeDouble(s: ChannelState, idle: seq<u32>, down: u32, held: seq<u32>, up: u32)
    requires !s.pressing && s.doublePending
    requires forall k :: 0 <= k < |idle| ==> Elapsed(idle[k], s.lastPressTime) <= DOUBLE_PRESS_GAP
    requires forall k :: 0 <= k < |held| ==> Elapsed(held[k], s.lastPressTime) <= DOUBLE_PRESS_GAP
    requires Elapsed(up, down) <= SHORT_PRESS_MAX
    requires Elapsed(down, s.lastPressTime) as int + Elapsed(up, down) as int <= DOUBLE_PRESS_GAP as int
    ensures Run(s, SecondPress(idle, down, held, up))
      == Outcome(s.(pressStart := down, doublePending := false), [Double])
  {
    var pressed := s.(pressStart := down, pressing := true);
    PendingWaits(s, idle);
    assert Step(s, true, down) == Outcome(pressed, []);
    HeldWaits(pressed, held);
    ElapsedAdds(s.lastPressTime, down, up);
    DoubleRelease(pressed, up);
    RunSecondPress(s, idle, down, held, up);
  }

  /** A second short press that starts after the gap has expired finds the first
      already resolved: the first press yields Short on the tick of the second
      press's rising edge, and the second is held back in its turn. */
  lemma LateSecondPress(s: ChannelState, idle: seq<u32>, down: u32, held: seq<u32>, up: u32)
    requires !s.pressing && s.doublePending
    requires forall k :: 0 <= k < |idle| ==> Elapsed(idle[k], s.lastPressTime) <= DOUBLE_PRESS_GAP
    requires Elapsed(down, s.lastPressTime) > DOUBLE_PRESS_GAP
    requires Elapsed(up, down) <= SHORT_PRESS_MAX
    ensures Run(s, SecondPress(idle, down, held, up))
      == Outcome(s.(pressStart := down, doublePending := true, lastPressTime := up), [Short])
  {
    var pressed := s.(pressStart := down, pressing := true, doublePending := false);
    PendingWaits(s, idle);
    assert Step(s, true, down) == Outcome(pressed, [Short]);
    HeldWaits(pressed, held);
    ShortReleaseHeld(pressed, up);
    RunSecondPress(s, idle, down, held, up);
  }

  /** A second short press that starts within the gap but is still held when the
      gap expires: a held-high tick after the gap yields the first press's
      Short, and the second press is held back in its turn. */
  lemma ShortFiresDuringSecondPress(s: ChannelState, idle: seq<u32>, down: u32,
                                    early: seq<u32>, mid: u32, late: seq<u32>, up: u32)
    requires !s.pressing && s.doublePending
    requires forall k :: 0 <= k < |idle| ==> Elapsed(idle[k], s.lastPressTime) <= DOUBLE_PRESS_GAP
    requires Elapsed(down, s.lastPressTime) <= DOUBLE_PRESS_GAP
    requires forall k :: 0 <= k < |early| ==> Elapsed(early[k], s.lastPressTime) <= DOUBLE_PRESS_GAP
    requires Elapsed(mid, s.lastPressTime) > DOUBLE_PRESS_GAP
    requires Elapsed(up, down) <= SHORT_PRESS_MAX
    ensures Run(s, SecondPress(idle, down, early + [mid] + late, up))
      == Outcome(s.(pressStart := down, doublePending := true, lastPressTime := up), [Short])
  {
    var pressed := s.(pressStart := down, pressing := true);
    var resolved := pressed.(doublePending := false);
    PendingWaits(s, idle);
    assert Step(s, true, down) == Outcome(pressed, []);
    assert HighAt(early + [mid] + late) == HighAt(early) + [Sample(true, mid)] + HighAt(late);
    HeldWaits(pressed, early);
    RunOne(pressed, Sample(true, mid));
    assert Step(pressed, true, mid) == Outcome(resolved, [Short]);
    HeldWaits(resolved, late);
    RunAppend(pressed, HighAt(early), [Sample(true, mid)]);
    RunAppend(pressed, HighAt(early) + [Sample(true, mid)], HighAt(late));
    assert Run(pressed, HighAt(early + [mid] + late)) == Outcome(resolved, [Short]);
    ShortReleaseHeld(resolved, up);
    RunSecondPress(s, idle, down, early + [mid] + late, up);
  }

  /** When no tick falls between the end of the gap and the second release, the
      first short press is never reported: the second release re-arms the
      pending flag over it, so two short presses further apart than the gap can
      yield one Short instead of two. The firmware polls continuously, so this
      needs the loop to be stalled (by a relay pulse on another channel, say). */
  lemma SparseTicksMergeShortPresses(s: ChannelState, idle: seq<u32>, down: u32, held: seq<u32>, up: u32)
    requires !s.pressing && s.doublePending
    requires forall k :: 0 <= k < |idle| ==> Elapsed(idle[k], s.lastPressTime) <= DOUBLE_PRESS_GAP
    requires Elapsed(down, s.lastPressTime) <= DOUBLE_PRESS_GAP
    requires forall k :: 0 <= k < |held| ==> Elapsed(held[k], s.lastPressTime) <= DOUBLE_PRESS_GAP
    requires Elapsed(up, down) <= SHORT_PRESS_MAX
    requires Elapsed(up, s.lastPressTime) > DOUBLE_PRESS_GAP
    ensures Run(s, SecondPress(idle, down, held, up))
      == Outcome(s.(pressStart := down, doublePending := true, lastPressTime := up), [])
  {
    var pressed := s.(pressStart := down, pressing := true);
    PendingWaits(s, idle);
    assert Step(s, true, down) == Outcome(pressed, []);
    HeldWaits(pressed, held);
    ShortReleaseHeld(pressed, up);
    RunSecondPress(s, idle, down, held, up);
  }

  // ---------------------------------------------------------------------
  // Two short presses further apart than the gap

  /** The first Short fires on an idle tick after the gap; the line may then
      stay idle for any number of ticks (`quiet`) before the second press starts
      from a quiet channel and resolves in its turn. Exactly two Shorts in all,
      and nothing after them while the line stays idle. */
  lemma IdleTickTwoShorts(s: ChannelState, times: seq<u32>, quiet: seq<u32>, down: u32, held: seq<u32>,
                          up: u32, after: seq<u32>, rest: seq<u32>)
    requires !s.pressing && s.doublePending
    requires |times| > 0
    requires forall k :: 0 <= k < |times| - 1 ==> Elapsed(times[k], s.lastPressTime) <= DOUBLE_PRESS_GAP
    requires Elapsed(times[|times| - 1], s.lastPressTime) > DOUBLE_PRESS_GAP
    requires Elapsed(up, down) <= SHORT_PRESS_MAX
    requires |after| > 0
    requires forall k :: 0 <= k < |after| - 1 ==> Elapsed(after[k], up) <= DOUBLE_PRESS_GAP
    requires Elapsed(after[|after| - 1], up) > DOUBLE_PRESS_GAP
    ensures Run(s, SecondPress(times + quiet, down, held, up) + LowAt(after + rest))
      == Outcome(s.(pressStart := down, doublePending := false, lastPressTime := up), [Short, Short])
  {
    var resolved := s.(doublePending := false);
    var pressed := resolved.(pressStart := down, pressing := true);
    var armed := pressed.(pressing := false, doublePending := true, lastPressTime := up);
    LoneShortResolves(s, times, quiet);
    assert Step(resolved, true, down) == Outcome(pressed, []);
    HeldWaits(pressed, held);
    ShortReleaseHeld(pressed, up);
    RunSecondPress(s, times + quiet, down, held, up);
    LoneShortResolves(armed, after, rest);
    RunAppend(s, SecondPress(times + quiet, down, held, up), LowAt(after + rest));
  }

  /** The first Short fires on the rising edge of a second press that starts
      after the gap (`LateSecondPress`), and the second press resolves on the
      first idle tick after its own gap: exactly two Shorts. */
  lemma LateSecondPressTwoShorts(s: ChannelState, idle: seq<u32>, down: u32, held: seq<u32>, up: u32,
                                 after: seq<u32>, rest: seq<u32>)
    requires !s.pressing && s.doublePending
    requires forall k :: 0 <= k < |idle| ==> Elapsed(idle[k], s.lastPressTime) <= DOUBLE_PRESS_GAP
    requires Elapsed(down, s.lastPressTime) > DOUBLE_PRESS_GAP
    requires Elapsed(up, down) <= SHORT_PRESS_MAX
    requires |after| > 0
    requires forall k :: 0 <= k < |after| - 1 ==> Elapsed(after[k], up) <= DOUBLE_PRESS_GAP
    requires Elapsed(after[|after| - 1], up) > DOUBLE_PRESS_GAP
    ensures Run(s, SecondPress(idle, down, held, up) + LowAt(after + rest))
      == Outcome(s.(pressStart := down, doublePending := false, lastPressTime := up), [Short, Short])
  {
    LateSecondPress(s, idle, down, held, up);
    LoneShortResolves(s.(pressStart := down, doublePending := true, lastPressTime := up), after, rest);
    RunAppend(s, SecondPress(idle, down, held, up), LowAt(after + rest));
  }

  /** The first Short fires on a held tick of a second press that started
      within the gap (`ShortFiresDuringSecondPress`), and the second press
      resolves on the first idle tick after its own gap: exactly two Shorts. */
  lemma HeldTickTwoShorts(s: ChannelState, idle: seq<u32>, down: u32,
                          early: seq<u32>, mid: u32, late: seq<u32>, up: u32,
                          after: seq<u32>, rest: seq<u32>)
    requires !s.pressing && s.doublePending
    requires forall k :: 0 <= k < |idle| ==> Elapsed(idle[k], s.lastPressTime) <= DOUBLE_PRESS_GAP
    requires Elapsed(down, s.lastPressTime) <= DOUBLE_PRESS_GAP
    requires forall k :: 0 <= k < |early| ==> Elapsed(early[k], s.lastPressTime) <= DOUBLE_PRESS_GAP
    requires Elapsed(mid, s.lastPressTime) > DOUBLE_PRESS_GAP
    requires Elapsed(up, down) <= SHORT_PRESS_MAX
    requires |after| > 0
    requires forall k :: 0 <= k < |after| - 1 ==> Elapsed(after[k], up) <= DOUBLE_PRESS_GAP
    requires Elapsed(after[|after| - 1], up) > DOUBLE_PRESS_GAP
    ensures Run(s, SecondPress(idle, down, early + [mid] + late, up) + LowAt(after + rest))
      == Outcome(s.(pressStart := down, doublePending := false, lastPressTime := up), [Short, Short])
  {
    ShortFiresDuringSecondPress(s, idle, down, early, mid, late, up);
    LoneShortResolves(s.(pressStart := down, doublePending := true, lastPressTime := up), after, rest);
    RunAppend(s, SecondPress(idle, down, early + [mid] + late, up), LowAt(after + rest));
  }
}

=== FILE: dispatch.dfy ===
/** Dispatch of a classified gesture: the action table and the relay pulse of
    `triggerAction`. */
module Dispatch {
  import opened Classifier

  /** Channels, and relays: the board pairs one relay with each RF input. */
  const NUM_CHANNELS: nat := 4

  /** GPIO numbers of the RF receiver inputs and of the relay outputs. The
      inputs are not read in the model: `Keyless.Channels.Tick` takes the level
      read from `RF_PINS[i]` as its parameter `levels[i]`. */
  const RF_PINS: seq<int> := [32, 33, 25, 26]
  const RELAY_PINS: seq<int> := [16, 17, 18, 19]

  /** A channel index. */
  type ChannelIndex = c: nat | c < NUM_CHANNELS

  datatype Option<T> = None | Some(value: T)

  /** One configured action: "none", or the text of a relay index, which the
      firmware turns into an `int` and which may be any value, in range or not. */
  datatype Action = NoAction | Relay(index: int)

  /** `actions[channel][press type]`: one entry per channel and gesture. */
  type ActionTable = t: seq<seq<Action>> | |t| == NUM_CHANNELS && forall c :: 0 <= c < |t| ==> |t[c]| == NUM_GESTURES
    witness seq(NUM_CHANNELS, _ => seq(NUM_GESTURES, _ => NoAction))

  function Lookup(table: ActionTable, ch: ChannelIndex, g: Gesture): Action
  {
    table[ch][TypeIndex(g)]
  }

  /** The relay an action drives, if it names one that exists. */
  function Target(a: Action): (r: Option<nat>)
    ensures r.Some? <==> (a.Relay? && 0 <= a.index < NUM_CHANNELS)
    ensures r.Some? ==> r.value == a.index && r.value < NUM_CHANNELS
  {
    if a.Relay? && 0 <= a.index < NUM_CHANNELS then Some(a.index) else None
  }

  /** One `digitalWrite` to a relay output: GPIO number and level (HIGH = true). */
  datatype PinWrite = PinWrite(pin: int, high: bool)

  /** The relay writes an action causes: "none" and indices outside the board
      cause none; a valid index pulses exactly its own relay, HIGH then LOW. */
  function PulseWrites(a: Action): (w: seq<PinWrite>)
    ensures w == [] <==> (a == NoAction || !(0 <= a.index < NUM_CHANNELS))
    ensures w != [] ==>
      (a.Relay? && 0 <= a.index < NUM_CHANNELS
       && w == [PinWrite(RELAY_PINS[a.index], true), PinWrite(RELAY_PINS[a.index], false)])
  {
    match Target(a)
    case None => []
    case Some(k) => [PinWrite(RELAY_PINS[k], true), PinWrite(RELAY_PINS[k], false)]
  }

  /** A gesture emitted by a channel. */
  datatype Event = Event(channel: ChannelIndex, gesture: Gesture)

  /** The relay writes of dispatching `events` in order. */
  function Writes(table: ActionTable, events: seq<Event>): seq<PinWrite>
  {
    if events == [] then []
    else PulseWrites(Lookup(table, events[0].channel, events[0].gesture)) + Writes(table, events[1..])
  }

  /** Dispatching one gesture is one `triggerAction`. */
  lemma WritesOfOne(table: ActionTable, ch: ChannelIndex, g: Gesture)
    ensures Writes(table, [Event(ch, g)]) == PulseWrites(Lookup(table, ch, g))
  {
    assert [Event(ch, g)][1..] == [];
  }

  lemma {:induction false} WritesAppend(table: ActionTable, xs: seq<Event>, ys: seq<Event>)
    ensures Writes(table, xs + ys) == Writes(table, xs) + Writes(table, ys)
    decreases |xs|
  {
    if xs == [] {
      assert xs + ys == ys;
    } else {
      assert (xs + ys)[1..] == xs[1..] + ys;
      WritesAppend(table, xs[1..], ys);
    }
  }

  /** A write log made of whole pulses: each relay write HIGH is followed at once
      by the write LOW to the same relay output. */
  ghost predicate Pulses(log: seq<PinWrite>)
    decreases |log|
  {
    log == [] ||
    (|log| >= 2 && log[0].high && !log[1].high && log[0].pin == log[1].pin
     && log[0].pin in RELAY_PINS && Pulses(log[2..]))
  }

  lemma {:induction false} PulsesAppend(a: seq<PinWrite>, b: seq<PinWrite>)
    requires Pulses(a) && Pulses(b)
    ensures Pulses(a + b)
    decreases |a|
  {
    if a == [] {
      assert a + b == b;
    } else {
      assert (a + b)[2..] == a[2..] + b;
      PulsesAppend(a[2..], b);
    }
  }

  /** Dispatching any gestures, with any table, only ever pulses relay outputs. */
  lemma {:induction false} WritesArePulses(table: ActionTable, events: seq<Event>)
    ensures Pulses(Writes(table, events))
    decreases |events|
  {
    if events != [] {
      var first := PulseWrites(Lookup(table, events[0].channel, events[0].gesture));
      assert Pulses(first) by {
        if first != [] { assert first[2..] == []; }
      }
      WritesArePulses(table, events[1..]);
      PulsesAppend(first, Writes(table, events[1..]));
    }
  }

  /** Dispatch that finds no relay in range for any event writes nothing. */
  lemma {:induction false} UnroutedEventsWriteNothing(table: ActionTable, events: seq<Event>)
    requires forall e :: e in events ==> Target(Lookup(table, e.channel, e.gesture)) == None
    ensures Writes(table, events) == []
    decreases |events|
  {
    if events != [] {
      assert events[0] in events;
      UnroutedEventsWriteNothing(table, events[1..]);
    }
  }

  /** The level a relay output is left at after the writes of `log`. */
  function LevelAfter(log: seq<PinWrite>, pin: int, initial: bool): bool
    decreases |log|
  {
    if log == [] then initial
    else LevelAfter(log[1..], pin, if log[0].pin == pin then log[0].high else initial)
  }

  /** A log of whole pulses leaves every output that started LOW at LOW. This is
      the write log's side of `Relays.Valid()`: start-up drives every relay LOW
      (`Relays.constructor`), dispatch writes only whole pulses
      (`WritesArePulses`), so each `RELAY_PINS[k]` is LOW again after every
      `TriggerAction`, as `Valid()` states of `pins[k]`. */
  lemma {:induction false} PulsesEndLow(log: seq<PinWrite>, pin: int)
    requires Pulses(log)
    ensures !LevelAfter(log, pin, false)
    decreases |log|
  {
    if log != [] {
      assert log[2..] == log[1..][1..];
      PulsesEndLow(log[2..], pin);
    }
  }

  /** The relay outputs: their levels, indexed by relay, and every write made to
      them by `triggerAction`, in order. */
  class Relays {
    const pins: array<bool>
    var log: seq<PinWrite>

    /** Between pulses every relay is LOW. */
    ghost predicate Valid()
      reads this, pins
    {
      pins.Length == NUM_CHANNELS && forall k :: 0 <= k < pins.Length ==> !pins[k]
    }

    /** Start-up drives every relay output LOW. */
    constructor ()
      ensures Valid() && fresh(pins) && log == []
    {
      pins := new bool[NUM_CHANNELS](_ => false);
      log := [];
    }

    /** `triggerAction(ch, type)`: looks up the action and, when it names a relay
        of the board, pulses that relay HIGH and then LOW. */
    method TriggerAction(table: ActionTable, ch: ChannelIndex, g: Gesture)
      requires Valid()
      modifies this, pins
      ensures Valid()
      ensures log == old(log) + PulseWrites(Lookup(table, ch, g))
    {
      var action := Lookup(table, ch, g);
      if action == NoAction {
        return;
      }
      var relayIndex := action.index;
      if 0 <= relayIndex < NUM_CHANNELS {
        pins[relayIndex] := true;
        log := log + [PinWrite(RELAY_PINS[relayIndex], true)];
        pins[relayIndex] := false;
        log := log + [PinWrite(RELAY_PINS[relayIndex], false)];
      }
    }
  }
}

=== FILE: keyless.dfy ===
/** The poll loop of the keyless-entry controller: four RF channels whose
    press state lives in four global arrays indexed by channel. */
module Keyless {
  import opened Time
  import opened Classifier
  import opened Dispatch

  /** The gestures of one tick tagged with the channel that emitted them. */
  function Tag(ch: ChannelIndex, gestures: seq<Gesture>): (r: seq<Event>)
    ensures |r| == |gestures|
    ensures forall k :: 0 <= k < |r| ==> r[k] == Event(ch, gestures[k])
  {
    seq(|gestures|, k requires 0 <= k < |gestures| => Event(ch, gestures[k]))
  }

  /** What one tick's state machines make of every channel, in channel order. */
  function TickOutcomes(states: seq<ChannelState>, levels: seq<bool>, now: u32): (outs: seq<Outcome>)
    requires |states| == |levels|
    ensures |outs| == |states|
    ensures forall j :: 0 <= j < |outs| ==> outs[j] == Step(states[j], levels[j], now)
  {
    seq(|states|, j requires 0 <= j < |states| => Step(states[j], levels[j], now))
  }

  /** The events of the channels below `n`, in channel order: each channel's
      gestures tagged with the channel. */
  function Collect(outs: seq<Outcome>, n: nat): (events: seq<Event>)
    requires n <= |outs| <= NUM_CHANNELS
    ensures forall e :: e in events ==> e.channel < n
    ensures (forall j :: 0 <= j < n ==> |outs[j].emitted| <= 1) ==> |events| <= n
  {
    if n == 0 then [] else Collect(outs, n - 1) + Tag(n - 1, outs[n - 1].emitted)
  }

  /** The events of `events` emitted by channel `ch`, in order. */
  function EventsOf(events: seq<Event>, ch: nat): seq<Event>
    decreases |events|
  {
    if events == [] then []
    else (if events[0].channel == ch then [events[0]] else []) + EventsOf(events[1..], ch)
  }

  lemma {:induction false} EventsOfAppend(xs: seq<Event>, ys: seq<Event>, ch: nat)
    ensures EventsOf(xs + ys, ch) == EventsOf(xs, ch) + EventsOf(ys, ch)
    decreases |xs|
  {
    if xs == [] {
      assert xs + ys == ys;
    } else {
      var head := if xs[0].channel == ch then [xs[0]] else [];
      assert (xs + ys)[0] == xs[0] && (xs + ys)[1..] == xs[1..] + ys;
      assert EventsOf(xs + ys, ch) == head + EventsOf(xs[1..] + ys, ch);
      EventsOfAppend(xs[1..], ys, ch);
    }
  }

  lemma {:induction false} EventsOfTag(c: ChannelIndex, gestures: seq<Gesture>, ch: nat)
    ensures EventsOf(Tag(c, gestures), ch) == if c == ch then Tag(c, gestures) else []
    decreases |gestures|
  {
    if gestures != [] {
      assert Tag(c, gestures)[1..] == Tag(c, gestures[1..]);
      EventsOfTag(c, gestures[1..], ch);
    }
  }

  /** The events a tick emits for channel `ch` are exactly the gestures of that
      channel's own state machine, whatever the other channels do. */
  lemma {:induction false} CollectOfChannel(outs: seq<Outcome>, n: nat, ch: nat)
    requires n <= |outs| <= NUM_CHANNELS
    ensures EventsOf(Collect(outs, n), ch) == if ch < n then Tag(ch, outs[ch].emitted) else []
    decreases n
  {
    if n > 0 {
      var last := Tag(n - 1, outs[n - 1].emitted);
      assert Collect(outs, n) == Collect(outs, n - 1) + last;
      CollectOfChannel(outs, n - 1, ch);
      EventsOfAppend(Collect(outs, n - 1), last, ch);
      EventsOfTag(n - 1, outs[n - 1].emitted, ch);
      if ch < n - 1 {
        assert EventsOf(last, ch) == [];
      } else if ch == n - 1 {
        assert EventsOf(Collect(outs, n - 1), ch) == [];
      }
    }
  }

  /** A tick hands at most one gesture per channel to `triggerAction`. */
  lemma TickEmitsAtMostOnePerChannel(states: seq<ChannelState>, levels: seq<bool>, now: u32)
    requires |states| == |levels| == NUM_CHANNELS
    ensures |Collect(TickOutcomes(states, levels, now), NUM_CHANNELS)| <= NUM_CHANNELS
    ensures forall ch :: 0 <= ch < NUM_CHANNELS ==>
      |EventsOf(Collect(TickOutcomes(states, levels, now), NUM_CHANNELS), ch)| <= 1
  {
    var outs := TickOutcomes(states, levels, now);
    forall j | 0 <= j < NUM_CHANNELS
      ensures |outs[j].emitted| <= 1
    {
      AtMostOneGesture(states[j], levels[j], now);
    }
    forall ch | 0 <= ch < NUM_CHANNELS
      ensures |EventsOf(Collect(outs, NUM_CHANNELS), ch)| <= 1
    {
      CollectOfChannel(outs, NUM_CHANNELS, ch);
    }
  }

  /** Extending a dispatch log by the writes of further events. */
  lemma LogGrows(table: ActionTable, start: seq<PinWrite>, mid: seq<PinWrite>, end: seq<PinWrite>,
                 xs: seq<Event>, ys: seq<Event>)
    requires mid == start + Writes(table, xs) && end == mid + Writes(table, ys)
    ensures end == start + Writes(table, xs + ys)
  {
    WritesAppend(table, xs, ys);
  }

  /** The state arrays of the controller. */
  class Channels {
    const isPressing: array<bool>
    const pressStart: array<u32>
    const lastPressTime: array<u32>
    const doublePending: array<bool>

    /** One entry per channel in each of four separate arrays. */
    ghost predicate Valid()
      reads this
    {
      isPressing.Length == NUM_CHANNELS && pressStart.Length == NUM_CHANNELS
      && lastPressTime.Length == NUM_CHANNELS && doublePending.Length == NUM_CHANNELS
      && isPressing != doublePending && pressStart != lastPressTime
    }

    /** The relay outputs do not share storage with the press state. */
    ghost predicate Apart(relays: Relays)
      reads this
    {
      relays.pins != isPressing && relays.pins != doublePending
    }

    /** Channel `i` as the state machine sees it. */
    ghost function At(i: nat): ChannelState
      reads this, isPressing, pressStart, lastPressTime, doublePending
      requires Valid() && i < NUM_CHANNELS
    {
      ChannelState(isPressing[i], pressStart[i], lastPressTime[i], doublePending[i])
    }

    /** All channels, in channel order. */
    ghost function States(): (r: seq<ChannelState>)
      reads this, isPressing, pressStart, lastPressTime, doublePending
      requires Valid()
      ensures |r| == NUM_CHANNELS && forall j :: 0 <= j < NUM_CHANNELS ==> r[j] == At(j)
    {
      seq(NUM_CHANNELS, j requires 0 <= j < NUM_CHANNELS
        reads this, isPressing, pressStart, lastPressTime, doublePending => At(j))
    }

    /** Start-up: every channel idle, timestamps zero. */
    constructor ()
      ensures Valid()
      ensures fresh(isPressing) && fresh(pressStart) && fresh(lastPressTime) && fresh(doublePending)
      ensures forall j :: 0 <= j < NUM_CHANNELS ==> At(j) == Idle
    {
      isPressing := new bool[NUM_CHANNELS](_ => false);
      pressStart := new u32[NUM_CHANNELS](_ => 0);
      lastPressTime := new u32[NUM_CHANNELS](_ => 0);
      doublePending := new bool[NUM_CHANNELS](_ => false);
    }

    /** A rising edge on channel `i` starts a press. */
    method PressEdge(i: ChannelIndex, level: bool, now: u32)
      requires Valid()
      modifies isPressing, pressStart
      ensures At(i) == Press(old(At(i)), level, now)
      ensures forall j :: 0 <= j < NUM_CHANNELS && j != i ==> At(j) == old(At(j))
    {
      if level && !isPressing[i] {
        pressStart[i] := now;
        isPressing[i] := true;
      }
    }

    /** A falling edge on channel `i` ends the press, classifies it and
        dispatches a Long or a Double. */
    method ReleaseEdge(i: ChannelIndex, level: bool, now: u32, table: ActionTable, relays: Relays)
      returns (emitted: seq<Gesture>)
      requires Valid() && relays.Valid() && Apart(relays)
      modifies isPressing, lastPressTime, doublePending, relays, relays.pins
      ensures relays.Valid()
      ensures At(i) == Release(old(At(i)), level, now).state
      ensures emitted == Release(old(At(i)), level, now).emitted
      ensures forall j :: 0 <= j < NUM_CHANNELS && j != i ==> At(j) == old(At(j))
      ensures relays.log == old(relays.log) + Writes(table, Tag(i, emitted))
    {
      emitted := [];
      if !level && isPressing[i] {
        var duration := Elapsed(now, pressStart[i]);
        isPressing[i] := false;
        if duration >= LONG_PRESS_MIN {
          relays.TriggerAction(table, i, Long);
          emitted := [Long];
          doublePending[i] := false;
        } else if duration <= SHORT_PRESS_MAX {
          if doublePending[i] && Elapsed(now, lastPressTime[i]) <= DOUBLE_PRESS_GAP {
            relays.TriggerAction(table, i, Double);
            emitted := [Double];
            doublePending[i] := false;
          } else {
            doublePending[i] := true;
            lastPressTime[i] := now;
          }
        }
      }
      if emitted != [] {
        WritesOfOne(table, i, emitted[0]);
      }
    }

    /** A short press on channel `i` pending for longer than the gap is
        dispatched as Short. */
    method ResolvePending(i: ChannelIndex, now: u32, table: ActionTable, relays: Relays)
      returns (emitted: seq<Gesture>)
      requires Valid() && relays.Valid() && Apart(relays)
      modifies doublePending, relays, relays.pins
      ensures relays.Valid()
      ensures At(i) == Timeout(old(At(i)), now).state
      ensures emitted == Timeout(old(At(i)), now).emitted
      ensures forall j :: 0 <= j < NUM_CHANNELS && j != i ==> At(j) == old(At(j))
      ensures relays.log == old(relays.log) + Writes(table, Tag(i, emitted))
    {
      emitted := [];
      if doublePending[i] && Elapsed(now, lastPressTime[i]) > DOUBLE_PRESS_GAP {
        relays.TriggerAction(table, i, Short);
        WritesOfOne(table, i, Short);
        emitted := [Short];
        doublePending[i] := false;
      }
    }

    /** The body of the poll loop for channel `i`, which samples `level` at
        `now` and dispatches what it classifies. */
    method ProcessChannel(i: ChannelIndex, level: bool, now: u32, table: ActionTable, relays: Relays)
      returns (emitted: seq<Gesture>)
      requires Valid() && relays.Valid() && Apart(relays)
      modifies isPressing, pressStart, lastPressTime, doublePending, relays, relays.pins
      ensures relays.Valid()
      ensures At(i) == Step(old(At(i)), level, now).state
      ensures emitted == Step(old(At(i)), level, now).emitted
      ensures forall j :: 0 <= j < NUM_CHANNELS && j != i ==> At(j) == old(At(j))
      ensures relays.log == old(relays.log) + Writes(table, Tag(i, emitted))
    {
      PressEdge(i, level, now);
      ghost var logPressed := relays.log;
      var released := ReleaseEdge(i, level, now, table, relays);
      ghost var logReleased := relays.log;
      var resolved := ResolvePending(i, now, table, relays);
      LogGrows(table, logPressed, logReleased, relays.log, Tag(i, released), Tag(i, resolved));
      assert Tag(i, released) + Tag(i, resolved) == Tag(i, released + resolved);
      emitted := released + resolved;
    }

    /** One pass of the poll loop over all channels, sampling `levels` (one per
        RF input, in channel order: `levels[i]` is the level read from
        `RF_PINS[i]`) at `now`. */
    method Tick(levels: seq<bool>, now: u32, table: ActionTable, relays: Relays)
      returns (events: seq<Event>)
      requires Valid() && relays.Valid() && Apart(relays) && |levels| == NUM_CHANNELS
      modifies isPressing, pressStart, lastPressTime, doublePending, relays, relays.pins
      ensures relays.Valid()
      ensures forall j :: 0 <= j < NUM_CHANNELS ==> At(j) == Step(old(At(j)), levels[j], now).state
      ensures events == Collect(TickOutcomes(old(States()), levels, now), NUM_CHANNELS)
      ensures relays.log == old(relays.log) + Writes(table, events)
    {
      ghost var before := States();
      ghost var outs := TickOutcomes(before, levels, now);
      events := [];
      for i := 0 to NUM_CHANNELS
        invariant relays.Valid()
        invariant forall j :: 0 <= j < i ==> At(j) == outs[j].state
        invariant forall j :: i <= j < NUM_CHANNELS ==> At(j) == before[j]
        invariant events == Collect(outs, i)
        invariant relays.log == old(relays.log) + Writes(table, events)
      {
        assert At(i) == before[i];
        ghost var logBefore := relays.log;
        var emitted := ProcessChannel(i, levels[i], now, table, relays);
        assert At(i) == outs[i].state && emitted == outs[i].emitted;
        assert Collect(outs, i + 1) == events + Tag(i, emitted);
        LogGrows(table, old(relays.log), logBefore, relays.log, events, Tag(i, emitted));
        events := events + Tag(i, emitted);
      }
    }
  }
}

=== FILE: scenarios.dfy ===
/** End-to-end behaviour of one channel over a few poll ticks, from any start
    time (so across the wrap-around of `millis()` too) and from any channel that
    is neither pressed nor holding a short press. */
module Scenarios {
  import opened Time
  import opened Classifier

  /** Press 200 ms, release, stay idle: nothing is reported 500 ms after the
      release, and one Short 600 ms after it. */
  lemma ShortPressScenario(s: ChannelState, t0: u32)
    requires Quiet(s)
    ensures Run(s, [Sample(true, t0), Sample(false, Advance(t0, 200)), Sample(false, Advance(t0, 700))]).emitted == []
    ensures Run(s, [Sample(true, t0), Sample(false, Advance(t0, 200)), Sample(false, Advance(t0, 700)),
                    Sample(false, Advance(t0, 800))]).emitted == [Short]
  {
    var up := Advance(t0, 200);
    ElapsedAdds(t0, up, Advance(t0, 700));
    ElapsedAdds(t0, up, Advance(t0, 800));
    var press := [Sample(true, t0), Sample(false, up)];
    var pressed := s.(pressing := true, pressStart := t0);
    var held := pressed.(pressing := false, doublePending := true, lastPressTime := up);
    RunOne(s, Sample(true, t0));
    ShortReleaseHeld(pressed, up);
    RunOne(pressed, Sample(false, up));
    RunAppend(s, [Sample(true, t0)], [Sample(false, up)]);
    assert Run(s, press) == Outcome(held, []);
    assert LowAt([Advance(t0, 700)]) == [Sample(false, Advance(t0, 700))];
    PendingWaits(held, [Advance(t0, 700)]);
    RunAppend(s, press, [Sample(false, Advance(t0, 700))]);
    assert LowAt([Advance(t0, 700), Advance(t0, 800)])
      == [Sample(false, Advance(t0, 700)), Sample(false, Advance(t0, 800))];
    assert [Advance(t0, 700), Advance(t0, 800)] + [] == [Advance(t0, 700), Advance(t0, 800)];
    LoneShortResolves(held, [Advance(t0, 700), Advance(t0, 800)], []);
    RunAppend(s, press, [Sample(false, Advance(t0, 700)), Sample(false, Advance(t0, 800))]);
  }

  /** Press 200 ms, release, 100 ms later press 150 ms, release: one Double at
      the second release and no Short. */
  lemma DoublePressScenario(s: ChannelState, t0: u32)
    requires Quiet(s)
    ensures Run(s, [Sample(true, t0), Sample(false, Advance(t0, 200)),
                    Sample(true, Advance(t0, 300)), Sample(false, Advance(t0, 450))])
      == Outcome(s.(pressStart := Advance(t0, 300), lastPressTime := Advance(t0, 200)), [Double])
  {
    var up := Advance(t0, 200);
    ElapsedAdds(t0, up, Advance(t0, 300));
    ElapsedAdds(t0, up, Advance(t0, 450));
    ElapsedAdds(t0, Advance(t0, 300), Advance(t0, 450));
    var pressed := s.(pressing := true, pressStart := t0);
    var held := pressed.(pressing := false, doublePending := true, lastPressTime := up);
    RunOne(s, Sample(true, t0));
    ShortReleaseHeld(pressed, up);
    RunOne(pressed, Sample(false, up));
    RunAppend(s, [Sample(true, t0)], [Sample(false, up)]);
    var second := SecondPress([], Advance(t0, 300), [], Advance(t0, 450));
    assert second == [Sample(true, Advance(t0, 300)), Sample(false, Advance(t0, 450))];
    TwoShortPressesMakeDouble(held, [], Advance(t0, 300), [], Advance(t0, 450));
    RunAppend(s, [Sample(true, t0), Sample(false, up)], second);
  }

  /** Press 900 ms, release: one Long at the release. */
  lemma LongPressScenario(s: ChannelState, t0: u32)
    requires Quiet(s)
    ensures Run(s, [Sample(true, t0), Sample(false, Advance(t0, 900))]) == Outcome(s.(pressStart := t0), [Long])
  {
    RunOne(s, Sample(true, t0));
    RunOne(s.(pressing := true, pressStart := t0), Sample(false, Advance(t0, 900)));
    RunAppend(s, [Sample(true, t0)], [Sample(false, Advance(t0, 900))]);
  }

  /** Press 600 ms, release: the press falls in the dead zone and nothing is
      reported, then or later. */
  lemma DeadZoneScenario(s: ChannelState, t0: u32)
    requires Quiet(s)
    ensures Run(s, [Sample(true, t0), Sample(false, Advance(t0, 600))]) == Outcome(s.(pressStart := t0), [])
  {
    RunOne(s, Sample(true, t0));
    RunOne(s.(pressing := true, pressStart := t0), Sample(false, Advance(t0, 600)));
    RunAppend(s, [Sample(true, t0)], [Sample(false, Advance(t0, 600))]);
  }
}

=== FILE: time.dfy ===
/** Millisecond timestamps as the firmware keeps them: `unsigned long`, which is
    32 bits wide on the ESP32, so `millis()` wraps to 0 after 2^32 - 1 ms. */
module Time {

  const WORD: int := 0x1_0000_0000

  /** An `unsigned long` value. */
  newtype u32 = x: int | 0 <= x < 0x1_0000_0000

  /** `now - since` computed in unsigned 32-bit arithmetic: the number of
      milliseconds that separate `since` from `now` going forward, modulo 2^32. */
  function Elapsed(now: u32, since: u32): (r: u32)
    ensures (since as int + r as int) % WORD == now as int
  {
    if since <= now then now - since else (WORD - (since as int - now as int)) as u32
  }

  /** Going forward from `since` by the elapsed time reaches `now` again, and no
      smaller or larger step within one turn of the clock does. */
  lemma ElapsedInverse(now: u32, since: u32, d: nat)
    requires d < WORD
    ensures (since as int + d) % WORD == now as int <==> d == Elapsed(now, since) as int
  {
    if since <= now {
      assert (since as int + (now - since) as int) % WORD == now as int;
    } else {
      assert (since as int + (WORD - (since as int - now as int))) % WORD == now as int;
    }
  }

  /** Timestamp `t` advanced by `d` milliseconds, with the wrap-around of `millis()`. */
  function Advance(t: u32, d: nat): (r: u32)
    ensures d < WORD ==> Elapsed(r, t) as int == d
  {
    ((t as int + d) % WORD) as u32
  }

  /** No time passes between a timestamp and itself. */
  lemma ElapsedSelf(t: u32)
    ensures Elapsed(t, t) == 0
  {
  }

  /** Wrap-safe elapsed times add up along three timestamps as long as the two
      stretches together stay below one full turn of the clock. */
  lemma ElapsedAdds(t1: u32, t2: u32, t3: u32)
    requires Elapsed(t2, t1) as int + Elapsed(t3, t2) as int < WORD
    ensures Elapsed(t3, t1) as int == Elapsed(t2, t1) as int + Elapsed(t3, t2) as int
  {
  }
}
